=== FILE: README.md ===
# Modbus master engine, modelled in Dafny

This project models the master-mode engine of a FreeModbus-derived Modbus
RTU/ASCII stack (`mbmaster.c`). The engine has a three-state lifecycle
(not initialised, disabled, enabled). It binds one transport at
initialisation and keeps a fixed-capacity table of (function code,
handler) slots. Each poll takes one event off the event queue and handles
it. Request frames go out through a bounded send-retry loop.

Every API call is a pure function from an immutable `Engine` record to a
`Step`. A `Step` holds the new engine, the returned error code, and the
calls made on collaborators, in order: transport init/start/stop/close,
timer enable/disable, receive, post, and handler invocation. Collaborator
results are parameters: the transport's init status, whether the event
queue came up, the receive result, the handler results (a function from
handler and frame to exception code), and each send attempt's outcome.
Handlers are opaque references (`Null` or `Fn(id)`).

Files:
- `modbus_types.dfy`: bytes, error codes, modes, parity, events, handler references, frames.
- `func_table.dfy`: the handler table, registration, and the dispatch scan.
- `func_table_properties.dfy`: lemmas relating registrations and scans.
- `master_engine.dfy`: lifecycle, poll, dispatch, and the engine invariant.
- `frame_send.dfy`: the send-retry loop.
- `engine_properties.dfy`: lemmas relating engine calls, the invariant over any call sequence, and scenarios.

Apart from the guarded fallback call described under "## Findings", the model follows the code as written, including these behaviours:
- An enabled poll returns ENoErr even when receive fails. The receive status is stored and never returned.
- A scan that runs off the end of the table without a match or a free slot does not call the fallback handler. The exception stays ILLEGAL FUNCTION.
- Close from Disabled succeeds even when no close operation is bound.
- Function codes are not kept unique. When the code is dispatched and the new handler is bound to no slot up to the matching one, registering it takes a later slot and the earlier slot keeps the dispatch (`ReRegisteredCodeIsShadowed`); when a free slot comes first, the new handler takes that slot and is the one dispatched (`FreeSlotBeforeCodeTakesDispatch`).
- Init does not check the lifecycle state. It binds the transport operations before the transport's own init runs, so a failed re-init still switches the binding (`FailedReInitRebinds`).

## Model

| member | source | states |
|---|---|---|
| FuncTable.InitialTable | Source/Project/ProgramUtility/port/mbmaster.c:108-139 | The table has the given capacity: the compile-time entries first, then free slots. |
| FuncTable.Register | Source/Project/ProgramUtility/port/mbmaster.c:247-290 | A code outside 1..127 gives EInval and leaves the table unchanged. A non-null handler succeeds exactly when some slot has a null or equal handler; it then rewrites only the first such slot, and otherwise gives ENoRes with the table unchanged. A null handler always succeeds and clears only the first slot with that code; if the code is absent it is a no-op. Table length never changes. |
| FuncTable.ScanFrom | Source/Project/ProgramUtility/port/mbmaster.c:426-440 | The scan ends at the first slot whose code is 0 or the wanted code. It stops there if the slot is free and matches otherwise. It is exhausted exactly when every slot is passed, and a zero function code never matches. |
| FuncTable.Scan | Source/Project/ProgramUtility/port/mbmaster.c:423-440 | Same as ScanFrom, for the whole table starting at slot 0. |
| FuncTableProperties.RegisterPreservesWellFormed | Source/Project/ProgramUtility/port/mbmaster.c:252-288 | If every slot is free or holds a valid code with a non-null handler, registration keeps it so. |
| FuncTableProperties.UnregisterUndoesRegister | Source/Project/ProgramUtility/port/mbmaster.c:255-281 | Unregistering a code just registered with a fresh handler gives back the original table. |
| FuncTableProperties.RegisteredCodeIsDispatched | Source/Project/ProgramUtility/port/mbmaster.c:257-266 | A code registered for the first time in a well-formed table is matched by the scan, at a slot holding the new handler. |
| FuncTableProperties.FreeSlotHidesLaterSlots | Source/Project/ProgramUtility/port/mbmaster.c:429-434 | No scan reaches or matches a slot that comes after a free slot. |
| FuncTableProperties.UnregisterHidesLaterHandler | Source/Project/ProgramUtility/port/mbmaster.c:271-279 | Unregistering a code whose slot comes before the slot matched for another code makes that other code's scan stop at the freed slot. |
| FuncTableProperties.ReRegisteredCodeIsShadowed | Source/Project/ProgramUtility/port/mbmaster.c:257-266 | Registering a dispatched code under a new handler, bound to no earlier slot, adds a second slot for the code after the first. The scan result does not change. |
| MasterEngine.Initial | Source/Project/ProgramUtility/port/mbmaster.c:64-139 | Before any call the engine is not initialised, with no mode, no bound transport operations, no fallback handler, no received frame, an idle timer, no exception and an empty queue. The table has the configured capacity: the compile-time entries first, every later slot free. |
| MasterEngine.Init | Source/Project/ProgramUtility/port/mbmaster.c:154-209 | An unsupported mode gives EInval and changes nothing. A supported mode rebinds the transport and calls exactly the transport's init, followed by the queue's init only when the transport came up; nothing else is called. A transport init failure is returned as is, and a queue init failure gives EPortErr; in both cases state and mode are unchanged. The table, fallback, timer, received frame and stored exception are never touched. Success exactly when both come up; then the state is Disabled and the mode is recorded. |
| MasterEngine.Enable | Source/Project/ProgramUtility/port/mbmaster.c:330-345 | Succeeds exactly from Disabled, starts the transport and moves to Enabled. Otherwise it gives EIllState with no change and no effect. |
| MasterEngine.Disable | Source/Project/ProgramUtility/port/mbmaster.c:351-370 | From Enabled it stops the transport and moves to Disabled. From Disabled it succeeds with no effect. Before init it gives EIllState. |
| MasterEngine.Close | Source/Project/ProgramUtility/port/mbmaster.c:308-324 | Never changes the engine. Succeeds exactly from Disabled, and calls the transport's close exactly when one is bound. Otherwise EIllState with no effect. |
| MasterEngine.RegisterCB | Source/Project/ProgramUtility/port/mbmaster.c:247-290 | Only the table changes, whatever the lifecycle state. The status is one of ENoErr, EInval, ENoRes. EInval comes exactly for invalid codes. A failed call changes nothing. The new table and the status are exactly those of `FuncTable.Register` on the engine's table. |
| MasterEngine.RegisterIllegalFuncCB | Source/Project/ProgramUtility/port/mbmaster.c:298-302 | Replaces the fallback handler, null or not, in any lifecycle state. Nothing else changes, no collaborator is called, and the status is ENoErr. |
| MasterEngine.Dispatch | Source/Project/ProgramUtility/port/mbmaster.c:421-441 | The handler of the first slot the scan does not pass runs on the frame when that slot holds the function code. If that slot is free, the fallback runs when one is set. In every other case no handler runs and the exception is ILLEGAL FUNCTION. |
| MasterEngine.ExecuteAsWritten | Source/Project/ProgramUtility/port/mbmaster.c:429-434 | As the source writes it: a scan that stops at a free slot calls the fallback pointer, even when it is null. Otherwise it agrees with Dispatch. |
| MasterEngine.Poll | Source/Project/ProgramUtility/port/mbmaster.c:376-450 | Not enabled: EIllState, no event consumed, no effect. Enabled: ENoErr always, lifecycle and table untouched, at most one event consumed. FrameReceived disables the timer, receives, and posts Execute exactly when receive succeeds, with no other call; the frame is recorded only on success. Execute dispatches the stored frame. FrameSent arms the timer with 5000. |
| MasterEngine.Arrive | Source/Project/ProgramUtility/port/mbmaster.c:396-413 | A posted event goes after the events already queued, which keep their order, so polls take events in the order they were posted. Nothing else in the engine changes. |
| FrameSend.SendArguments | Source/Project/ProgramUtility/port/mbmaster.c:462 | Each attempt sends the first byte as address and the rest as payload. The length is one less than given, and a zero length wraps to 0xFFFF. |
| FrameSend.SendFrame | Source/Project/ProgramUtility/port/mbmaster.c:458-469 | Between 1 and 1000 send attempts. Every attempt but the last failed, and the last either succeeded or was the 1000th. The delay slept is 5000 µs per retry. The status is ENoErr regardless. |
| EngineProperties.EnableTwiceFails | Source/Project/ProgramUtility/port/mbmaster.c:334-343 | A second consecutive Enable gives EIllState and changes nothing. |
| EngineProperties.DisableUndoesEnable | Source/Project/ProgramUtility/port/mbmaster.c:355-359 | Disable after Enable returns the engine to where it was and stops the transport. |
| EngineProperties.DisableIsIdempotent | Source/Project/ProgramUtility/port/mbmaster.c:361-364 | A second Disable succeeds with no change and no effect. |
| EngineProperties.CloseWhileEnabledFails | Source/Project/ProgramUtility/port/mbmaster.c:312-322 | Close on an enabled engine gives EIllState and leaves it enabled. |
| EngineProperties.InitEnablePoll | Source/Project/ProgramUtility/port/mbmaster.c:194-205 | A successful Init then Enable gives an enabled engine. Polling its empty queue succeeds with no change. |
| EngineProperties.ReInitSkipsStop | Source/Project/ProgramUtility/port/mbmaster.c:154-209 | Init on an enabled engine succeeds and disables it without stopping the transport. |
| EngineProperties.FailedReInitRebinds | Source/Project/ProgramUtility/port/mbmaster.c:161-173 | A failed re-init leaves the engine enabled with its old mode but the new transport bound. |
| EngineProperties.InvMakesPollDefined | Source/Project/ProgramUtility/port/mbmaster.c:421-423 | If the invariant holds, an Execute at the head of the queue has a received frame to read. |
| EngineProperties.PollPreservesInv | Source/Project/ProgramUtility/port/mbmaster.c:404-419 | Poll keeps the invariant: Execute is only ever queued together with a received frame. |
| EngineProperties.Apply | Source/Project/ProgramUtility/port/mbmaster.c:154-450 | Every API call, and every event arrival other than Execute, keeps the invariant. |
| EngineProperties.Run | Source/Project/ProgramUtility/port/mbmaster.c:376-450 | Any sequence of such calls keeps the invariant. |
| EngineProperties.InitialSatisfiesInv | Source/Project/ProgramUtility/port/mbmaster.c:74-140 | The start engine keeps the invariant when its compile-time entries are well formed. |
| EngineProperties.ReachableEnginesArePollable | Source/Project/ProgramUtility/port/mbmaster.c:396-423 | Every engine reached from the start keeps the invariant, so no poll reads through a null frame pointer. |
| EngineProperties.ReceivedFrameIsDispatchedNextPoll | Source/Project/ProgramUtility/port/mbmaster.c:404-441 | A frame is read on one poll, with the timer disabled before receive and Execute posted. It is dispatched only on the next poll, with the handler and exception the table selects for it. |
| EngineProperties.RegisteredHandlerRunsOnExecute | Source/Project/ProgramUtility/port/mbmaster.c:435-438 | After a code is first registered to a handler, executing a frame with that code calls exactly that handler and records its exception. |
| EngineProperties.FallbackRunsAtFreeSlot | Source/Project/ProgramUtility/port/mbmaster.c:298-302 | Once a fallback is registered, a frame whose scan stops at a free slot is handed to it. |
| EngineProperties.DispatchNeverInvokesNull | Source/Project/ProgramUtility/port/mbmaster.c:429-438 | With the guarded fallback call, dispatch on a well-formed table never calls a null handler. |
| EngineProperties.AsWrittenCallsNullFallback | Source/Project/ProgramUtility/port/mbmaster.c:140 | As written, a fresh engine with a free slot calls the never-registered null fallback. The guarded dispatch makes no call. |
| EngineProperties.ThreeSlotsFill | Source/Project/ProgramUtility/port/mbmaster.c:257-267 | Codes 3, 4 and 6 fill a three-slot table in order. |
| EngineProperties.ThreeSlotsOverflowAndReuse | Source/Project/ProgramUtility/port/mbmaster.c:257-281 | On the full table code 8 gives ENoRes with no change. Unregistering 4 leaves a hole where the scan for 6 stops. Code 8 then takes the hole, and 8 and 6 are both dispatched. |
| EngineProperties.SameHandlerIsRebound | Source/Project/ProgramUtility/port/mbmaster.c:259-263 | Registering a handler already in the table under a new code rewrites that slot's code, so the old code is no longer matched there. |
| EngineProperties.FreeSlotBeforeCodeTakesDispatch | Source/Project/ProgramUtility/port/mbmaster.c:257-266 | With a free slot before the slot of code 3, registering a second handler for 3 takes the free slot, leaves two slots with code 3, and the new handler is the one the scan matches. |

## Findings

| source | as written | input that shows it | evidently intended | confidence | as-written member | corrected member |
|---|---|---|---|---|---|---|
| Source/Project/ProgramUtility/port/mbmaster.c:429-433 | When the scan meets a free slot it calls `pxIllegalFuncHandler` without a null check. That pointer is a static that starts null. | `eMBRegisterIllegalFuncCB` never called, and an EV_EXECUTE whose function code is in no slot before the first free slot (`AsWrittenCallsNullFallback`) | skip the call when no fallback is registered, so the exception stays ILLEGAL FUNCTION (`DispatchNeverInvokesNull`) | medium; not executed | MasterEngine.ExecuteAsWritten | MasterEngine.Dispatch |

`Poll` uses the corrected `Dispatch`.

## Left out

- `eMBTCPInit` is compiled only with TCP enabled and assigns an address variable that is commented out. It is not modelled. TCP is a mode `eMBInit` has no case for, so it gives EInval.
- Installing the byte-received, transmitter-empty and timer-expiry callbacks is interrupt wiring, so it is not modelled. The ASCII branch of `eMBInit` does not set the master-timer-expiry callback.
- Critical sections and interrupt-context concurrency are not modelled: every call is one atomic transition.
- `usleep` timing is modelled only as the accumulated delay in microseconds.
- `DEBUG_PUTSTRING` output is not modelled.
- RTU/ASCII framing, CRC/LRC, handler bodies and the send/receive operations are parameters.
- The event queue is an unbounded FIFO sequence, and a successful queue initialisation leaves it empty. Its implementation is not part of this model. A failed post is not modelled because the source discards the post result.
- Handlers receive the frame bytes and the length through non-const pointers and may rewrite both. The model keeps no separate length and passes each handler the received frame as a value, so a later Execute sees the frame as received, not as an earlier handler left it.
- When receive fails, the previously received frame is kept. This assumes the transport writes its output arguments only on success.
- The fallback handler is registered with a different pointer type than it is called with. The model treats it as an ordinary handler.
- `MB_FUNC_HANDLERS_MAX` and the compile-time table entries come from `mbconfig.h`, which is not part of this model. They are the capacity and defaults parameters of `Initial`.
- The transport and port-layer code that posts Ready, FrameReceived and FrameSent is not part of this model. `MasterEngine.Arrive` stands in for those posts, and `EngineProperties.Apply` never posts Execute from outside.
- The porttimer.c timer shim only toggles a hardware interrupt, so it is not modelled.
- FrameSend.SendFrame requires a bound transport. Before `eMBInit`, the source would call an unset function pointer, and the model does not represent that.
- MasterEngine.Poll dispatches Execute through the guarded Dispatch; the source calls the fallback unguarded (ExecuteAsWritten), so with no fallback registered a reachable engine calls through a null pointer.
- MasterEngine.Poll requires that an Execute at the head of the queue has a received frame. Otherwise the source reads through a null frame pointer. `ReachableEnginesArePollable` shows every reachable engine meets this requirement.

=== FILE: engine_properties.dfy ===
/**
  Properties of the engine that relate several calls: the lifecycle
  transitions undo each other, every reachable engine keeps the invariant
  (so a queued Execute always has a frame to read), a received frame is
  dispatched on the following poll, a registered handler is the one that
  runs, the guarded fallback call never goes through a null pointer while
  the unguarded one does, and scenarios on small tables.
 */
module EngineProperties {
  import opened ModbusTypes
  import opened FuncTable
  import opened FuncTableProperties
  import opened MasterEngine

  // ---------------------------------------------------------------------
  // Lifecycle

  /** Enabling twice in a row fails the second time and changes nothing. */
  lemma EnableTwiceFails(e: Engine)
    ensures Enable(Enable(e).engine).status == EIllState
    ensures Enable(Enable(e).engine).engine == Enable(e).engine
  {
  }

  /** Disable undoes Enable: the engine is back where it was. */
  lemma DisableUndoesEnable(e: Engine)
    requires e.state == Disabled
    ensures Disable(Enable(e).engine) == Step(e, ENoErr, [TransportStop])
  {
  }

  /** A second Disable succeeds, changes nothing and calls nothing. */
  lemma DisableIsIdempotent(e: Engine)
    requires e.state != NotInitialized
    ensures Disable(Disable(e).engine) == Step(Disable(e).engine, ENoErr, [])
  {
  }

  /** Close fails on an enabled engine and leaves it enabled. */
  lemma CloseWhileEnabledFails(e: Engine)
    requires e.state == Enabled
    ensures Close(e) == Step(e, EIllState, [])
  {
  }

  /**
    A successful Init followed by Enable leaves the engine enabled, and a
    poll of its empty queue succeeds without doing anything.
   */
  lemma InitEnablePoll(e: Engine, cfg: Config, mode: Mode, address: byte, port: byte,
                       baud: uint32, parity: Parity, rx: RxResult,
                       run: (HandlerRef, Frame) -> Exception)
    requires Supported(cfg, mode)
    ensures var i := Init(e, cfg, mode, address, port, baud, parity, ENoErr, true);
      && i.status == ENoErr && i.engine.state == Disabled
      && Enable(i.engine).status == ENoErr && Enable(i.engine).engine.state == Enabled
      && Poll(Enable(i.engine).engine, rx, run) == Step(Enable(i.engine).engine, ENoErr, [])
  {
  }

  /**
    Init does not look at the lifecycle state: run on an enabled engine
    it succeeds, disables it, and never stops the running transport.
   */
  lemma ReInitSkipsStop(e: Engine, cfg: Config, mode: Mode, address: byte, port: byte,
                        baud: uint32, parity: Parity)
    requires e.state == Enabled && Supported(cfg, mode)
    ensures var r := Init(e, cfg, mode, address, port, baud, parity, ENoErr, true);
      r.status == ENoErr && r.engine.state == Disabled && TransportStop !in r.effects
  {
  }

  /**
    A failed re-initialisation leaves the engine enabled, yet the
    transport it will stop on Disable is the newly bound one.
   */
  lemma FailedReInitRebinds(e: Engine, cfg: Config, mode: Mode, address: byte, port: byte,
                            baud: uint32, parity: Parity, transportStatus: ErrorCode)
    requires e.state == Enabled && Supported(cfg, mode) && transportStatus != ENoErr
    ensures var r := Init(e, cfg, mode, address, port, baud, parity, transportStatus, true);
      && r.status == transportStatus
      && r.engine.state == Enabled
      && r.engine.mode == e.mode
      && r.engine.binding == Some(Binding(mode, cfg.portHasClose))
      && Disable(r.engine).effects == [TransportStop]
  {
  }

  // ---------------------------------------------------------------------
  // Invariant over any sequence of calls

  /** Every call an application, the transport or the port layer can make. */
  datatype Call =
    | CallInit(cfg: Config, mode: Mode, address: byte, port: byte, baud: uint32,
               parity: Parity, transportStatus: ErrorCode, queueOk: bool)
    | CallEnable
    | CallDisable
    | CallClose
    | CallRegister(code: byte, handler: HandlerRef)
    | CallRegisterIllegal(fallback: HandlerRef)
    | CallPoll(rx: RxResult, run: (HandlerRef, Frame) -> Exception)
    | CallArrive(event: Event)

  /** Execute is posted only by the poll loop itself, never from outside. */
  predicate External(c: Call) {
    c.CallArrive? ==> c.event != Execute
  }

  /** The invariant makes every poll well defined. */
  lemma InvMakesPollDefined(e: Engine)
    requires Inv(e)
    ensures PollDefined(e)
  {
    if e.state == Enabled && |e.queue| > 0 && e.queue[0] == Execute {
      assert Execute in e.queue;
    }
  }

  /** A poll keeps the invariant. */
  lemma PollPreservesInv(e: Engine, rx: RxResult, run: (HandlerRef, Frame) -> Exception)
    requires Inv(e)
    ensures PollDefined(e)
    ensures Inv(Poll(e, rx, run).engine)
  {
    InvMakesPollDefined(e);
    var r := Poll(e, rx, run);
    if e.state == Enabled && e.queue != [] && Execute in r.engine.queue {
      if e.queue[0] == FrameReceived && rx.status == ENoErr {
        assert r.engine.frame == Some(rx.frame);
      } else {
        assert r.engine.queue == e.queue[1..];
        assert Execute in e.queue;
      }
    }
  }

  /** One call, applied to an engine that keeps the invariant. */
  function Apply(e: Engine, c: Call): (r: Engine)
    requires Inv(e) && External(c)
    ensures Inv(r)
  {
    match c
    case CallInit(cfg, mode, address, port, baud, parity, st, ok) =>
      Init(e, cfg, mode, address, port, baud, parity, st, ok).engine
    case CallEnable => Enable(e).engine
    case CallDisable => Disable(e).engine
    case CallClose => Close(e).engine
    case CallRegister(code, h) =>
      RegisterPreservesWellFormed(e.table, code, h);
      RegisterCB(e, code, h).engine
    case CallRegisterIllegal(h) => RegisterIllegalFuncCB(e, h).engine
    case CallPoll(rx, run) =>
      PollPreservesInv(e, rx, run);
      Poll(e, rx, run).engine
    case CallArrive(ev) =>
      assert Execute in e.queue + [ev] ==> Execute in e.queue;
      Arrive(e, ev)
  }

  /** A whole sequence of calls, one after the other. */
  function Run(e: Engine, calls: seq<Call>): (r: Engine)
    requires Inv(e)
    requires forall i :: 0 <= i < |calls| ==> External(calls[i])
    ensures Inv(r)
    ensures calls == [] ==> r == e
    decreases |calls|
  {
    if calls == [] then e else Run(Apply(e, calls[0]), calls[1..])
  }

  /** The engine before any call keeps the invariant when its defaults do. */
  lemma InitialSatisfiesInv(defaults: seq<Slot>, capacity: nat)
    requires |defaults| <= capacity && WellFormed(defaults)
    ensures Inv(Initial(defaults, capacity))
  {
    var t := Initial(defaults, capacity).table;
    forall i | 0 <= i < |t|
      ensures WellFormedSlot(t[i])
    {
      if i < |defaults| {
        assert t[i] == t[..|defaults|][i];
      }
    }
  }

  /**
    Every engine reached from the start by calls of the application, the
    transport and the port layer keeps the invariant, so every poll it
    makes has a frame to dispatch.
   */
  lemma ReachableEnginesArePollable(defaults: seq<Slot>, capacity: nat, calls: seq<Call>)
    requires |defaults| <= capacity && WellFormed(defaults)
    requires forall i :: 0 <= i < |calls| ==> External(calls[i])
    ensures Inv(Run(Initial(defaults, capacity), calls))
    ensures PollDefined(Run(Initial(defaults, capacity), calls))
  {
    InitialSatisfiesInv(defaults, capacity);
    InvMakesPollDefined(Run(Initial(defaults, capacity), calls));
  }

  // ---------------------------------------------------------------------
  // Receive, then execute

  /**
    A frame that arrives on an idle enabled engine is read on one poll,
    and dispatched on the next one, not before: the first poll stops the
    timer before reading and queues Execute, the second runs the handler
    the table selects for the frame just read.
   */
  lemma {:induction false} ReceivedFrameIsDispatchedNextPoll(
    e: Engine, rx: RxResult, rx2: RxResult, run: (HandlerRef, Frame) -> Exception)
    requires e.state == Enabled && e.queue == [FrameReceived] && rx.status == ENoErr
    ensures var p1 := Poll(e, rx, run);
      && p1.effects == [TimerDisable, Receive, Post(Execute)]
      && p1.engine.queue == [Execute]
      && p1.engine.exception == e.exception
      && PollDefined(p1.engine)
      && var p2 := Poll(p1.engine, rx2, run);
         && p2.engine.queue == []
         && p2.engine.exception == Dispatch(e.table, e.illegal, rx.frame, run).exception
         && p2.effects == Dispatch(e.table, e.illegal, rx.frame, run).effects
  {
  }

  /**
    A code registered for the first time on a consistent engine is
    handled by its handler: once its frame is up for execution, the next
    poll calls that handler and records the exception it returns.
   */
  lemma {:induction false} RegisteredHandlerRunsOnExecute(
    e: Engine, h: HandlerRef, f: Frame, rx: RxResult, run: (HandlerRef, Frame) -> Exception)
    requires Inv(e) && e.state == Enabled && |e.queue| > 0 && e.queue[0] == Execute
    requires e.frame == Some(f) && h != Null && ValidCode(f.functionCode)
    requires forall i :: 0 <= i < |e.table| ==> e.table[i].code != f.functionCode
    requires RegisterCB(e, f.functionCode, h).status == ENoErr
    ensures var p := Poll(RegisterCB(e, f.functionCode, h).engine, rx, run);
      p.effects == [Invoke(h)] && p.engine.exception == run(h, f)
  {
    var e' := RegisterCB(e, f.functionCode, h).engine;
    RegisteredCodeIsDispatched(e.table, f.functionCode, h);
    var s := Scan(e'.table, f.functionCode);
    assert e'.table[s.index].handler == h;
    assert Reaches(e'.table, f.functionCode, s.index);
  }

  /**
    With a fallback registered, a frame whose scan stops at a free slot
    is handed to the fallback.
   */
  lemma {:induction false} FallbackRunsAtFreeSlot(
    e: Engine, h: HandlerRef, rx: RxResult, run: (HandlerRef, Frame) -> Exception)
    requires e.state == Enabled && |e.queue| > 0 && e.queue[0] == Execute && e.frame.Some?
    requires h != Null && Scan(e.table, e.frame.value.functionCode).Stopped?
    ensures var p := Poll(RegisterIllegalFuncCB(e, h).engine, rx, run);
      p.effects == [Invoke(h)] && p.engine.exception == run(h, e.frame.value)
  {
    assert Reaches(e.table, e.frame.value.functionCode, Scan(e.table, e.frame.value.functionCode).index);
  }

  // ---------------------------------------------------------------------
  // The fallback call through a null pointer

  /**
    The guarded dispatch never calls through a null pointer on a well
    formed table: matching slots hold non-null handlers, and the fallback
    is called only when it is set.
   */
  lemma DispatchNeverInvokesNull(t: Table, illegal: HandlerRef, f: Frame,
                                 run: (HandlerRef, Frame) -> Exception)
    requires WellFormed(t)
    ensures Invoke(Null) !in Dispatch(t, illegal, f, run).effects
  {
    var s := Scan(t, f.functionCode);
    if s.Match? {
      assert WellFormedSlot(t[s.index]);
    }
  }

  /**
    As written, the dispatch calls the fallback pointer although none was
    ever registered: an engine fresh from Init has a null fallback, and
    with a free first slot any executed frame reaches it.
   */
  lemma AsWrittenCallsNullFallback(f: Frame, run: (HandlerRef, Frame) -> Exception)
    ensures ExecuteAsWritten(InitialTable([], 1), Initial([], 1).illegal, f, run).effects == [Invoke(Null)]
    ensures Dispatch(InitialTable([], 1), Initial([], 1).illegal, f, run).effects == []
  {
    var t := InitialTable([], 1);
    assert t[0] == FreeSlot;
    assert Reaches(t, f.functionCode, 0);
  }

  // ---------------------------------------------------------------------
  // A table of three slots

  /** Codes 3, 4 and 6 with three distinct handlers fill a three-slot table. */
  lemma ThreeSlotsFill()
    ensures InitialTable([], 3) == [FreeSlot, FreeSlot, FreeSlot]
    ensures Register([FreeSlot, FreeSlot, FreeSlot], 3, Fn(1))
      == Update([Slot(3, Fn(1)), FreeSlot, FreeSlot], ENoErr)
    ensures Register([Slot(3, Fn(1)), FreeSlot, FreeSlot], 4, Fn(2))
      == Update([Slot(3, Fn(1)), Slot(4, Fn(2)), FreeSlot], ENoErr)
    ensures Register([Slot(3, Fn(1)), Slot(4, Fn(2)), FreeSlot], 6, Fn(3))
      == Update([Slot(3, Fn(1)), Slot(4, Fn(2)), Slot(6, Fn(3))], ENoErr)
  {
    assert FirstReusable([FreeSlot, FreeSlot, FreeSlot], Fn(1), 0);
    assert FirstReusable([Slot(3, Fn(1)), FreeSlot, FreeSlot], Fn(2), 1);
    assert FirstReusable([Slot(3, Fn(1)), Slot(4, Fn(2)), FreeSlot], Fn(3), 2);
  }

  /**
    On the full table code 8 finds no room and nothing changes; once code
    4 is unregistered the scan for 6 stops at the hole, and code 8 then
    takes the freed slot and is dispatched there while 3 and 6 keep theirs.
   */
  lemma ThreeSlotsOverflowAndReuse()
    ensures var full := [Slot(3, Fn(1)), Slot(4, Fn(2)), Slot(6, Fn(3))];
      && Register(full, 8, Fn(4)) == Update(full, ENoRes)
      && Register(full, 4, Null) == Update([Slot(3, Fn(1)), FreeSlot, Slot(6, Fn(3))], ENoErr)
    ensures Scan([Slot(3, Fn(1)), FreeSlot, Slot(6, Fn(3))], 6) == Stopped(1)
    ensures Register([Slot(3, Fn(1)), FreeSlot, Slot(6, Fn(3))], 8, Fn(4))
      == Update([Slot(3, Fn(1)), Slot(8, Fn(4)), Slot(6, Fn(3))], ENoErr)
    ensures Scan([Slot(3, Fn(1)), Slot(8, Fn(4)), Slot(6, Fn(3))], 8) == Match(1)
    ensures Scan([Slot(3, Fn(1)), Slot(8, Fn(4)), Slot(6, Fn(3))], 6) == Match(2)
  {
    var full := [Slot(3, Fn(1)), Slot(4, Fn(2)), Slot(6, Fn(3))];
    assert !Reusable(full[0], Fn(4)) && !Reusable(full[1], Fn(4)) && !Reusable(full[2], Fn(4));
    assert FirstWithCode(full, 4, 1);
    var holed := [Slot(3, Fn(1)), FreeSlot, Slot(6, Fn(3))];
    assert Reaches(holed, 6, 1);
    assert FirstReusable(holed, Fn(4), 1);
    var refilled := [Slot(3, Fn(1)), Slot(8, Fn(4)), Slot(6, Fn(3))];
    assert Reaches(refilled, 8, 1);
    assert Reaches(refilled, 6, 2);
  }

  /**
    Registering a handler already in the table under another code moves
    that slot to the new code instead of taking a second slot: the old
    code is no longer dispatched there.
   */
  lemma SameHandlerIsRebound()
    ensures var t := [Slot(3, Fn(1)), FreeSlot];
      var r := Register(t, 5, Fn(1));
      && r == Update([Slot(5, Fn(1)), FreeSlot], ENoErr)
      && Scan(r.table, 3) == Stopped(1)
      && Scan(r.table, 5) == Match(0)
  {
    var t := [Slot(3, Fn(1)), FreeSlot];
    assert FirstReusable(t, Fn(1), 0);
    var t' := [Slot(5, Fn(1)), FreeSlot];
    assert Reaches(t', 3, 1);
    assert Reaches(t', 5, 0);
  }

  /**
    Codes are not kept unique, and a free slot ahead of a code's slot is
    taken first: registering a second handler for the code then puts it in
    front, and the new handler is the one dispatched.
   */
  lemma FreeSlotBeforeCodeTakesDispatch()
    ensures var t := [FreeSlot, Slot(3, Fn(1))];
      var r := Register(t, 3, Fn(2));
      && r == Update([Slot(3, Fn(2)), Slot(3, Fn(1))], ENoErr)
      && Scan(r.table, 3) == Match(0)
  {
    var t := [FreeSlot, Slot(3, Fn(1))];
    assert FirstReusable(t, Fn(2), 0);
    assert Reaches([Slot(3, Fn(2)), Slot(3, Fn(1))], 3, 0);
  }
}

=== FILE: frame_send.dfy ===
/**
  Sending a request frame: the bound transport's send operation is tried
  until it succeeds or the attempt budget runs out, sleeping between
  attempts, and the caller is told that all went well either way.
 */
module FrameSend {
  import opened ModbusTypes
  import opened MasterEngine

  /** Attempts made before giving up. */
  const MaxSendAttempts: nat := 1000

  /** Sleep between two attempts, in microseconds. */
  const RetryDelayUs: nat := 5000

  /** The arguments one send attempt hands to the transport. */
  datatype SendCall = SendCall(address: byte, payload: seq<byte>, length: uint16)

  /**
    The arguments of every attempt: the first byte is the destination
    address, the rest is the payload, and the length drops the address
    byte. The length is a 16-bit parameter, so a zero length wraps round.
   */
  function SendArguments(frame: seq<byte>, length: uint16): (c: SendCall)
    requires |frame| >= 1
    ensures [c.address] + c.payload == frame
    ensures length >= 1 ==> c.length as int == length as int - 1
    ensures length == 0 ==> c.length as int == 0xFFFF
  {
    SendCall(frame[0], frame[1..], ((length as int - 1) % 0x1_0000) as uint16)
  }

  /**
    `sendOk(k)` is what the transport's send operation reports on attempt
    `k` (counting from 0). The loop stops at the first success or after
    MaxSendAttempts attempts, sleeps only between attempts, and the result
    is ENoErr in both cases.
   */
  method SendFrame(e: Engine, frame: seq<byte>, length: uint16, sendOk: nat -> bool)
    returns (status: ErrorCode, call: SendCall, attempts: nat, delayUs: nat)
    requires e.binding.Some?
    requires |frame| >= 1
    ensures status == ENoErr
    ensures call == SendArguments(frame, length)
    ensures 1 <= attempts <= MaxSendAttempts
    ensures forall k :: 0 <= k < attempts - 1 ==> !sendOk(k)
    ensures sendOk(attempts - 1) || attempts == MaxSendAttempts
    ensures delayUs == (attempts - 1) * RetryDelayUs
  {
    call := SendArguments(frame, length);
    var timeout: uint32 := 1000;
    attempts := 0;
    delayUs := 0;
    while true
      invariant 1 <= timeout <= 1000
      invariant attempts + timeout as int == MaxSendAttempts
      invariant forall k :: 0 <= k < attempts ==> !sendOk(k)
      invariant delayUs == attempts * RetryDelayUs
      decreases timeout
    {
      var ok := sendOk(attempts);
      attempts := attempts + 1;
      if ok {
        break;
      }
      timeout := timeout - 1;
      if timeout == 0 {
        break;
      }
      delayUs := delayUs + RetryDelayUs;
    }
    status := ENoErr;
  }
}

=== FILE: func_table.dfy ===
/**
  The function-handler dispatch table: a fixed-capacity sequence of
  (function code, handler) slots, the register/unregister rules that
  mutate it, and the linear scan the poll loop uses to pick a handler.
 */
module FuncTable {
  import opened ModbusTypes

  /** One entry of the table; code 0 with a null handler marks a free slot. */
  datatype Slot = Slot(code: byte, handler: HandlerRef)

  type Table = seq<Slot>

  const FreeSlot := Slot(0, Null)

  /** Function codes the registration call accepts. */
  predicate ValidCode(code: byte) {
    0 < code <= 127
  }

  /** A slot is free, or holds a valid code bound to a non-null handler. */
  predicate WellFormedSlot(s: Slot) {
    s == FreeSlot || (ValidCode(s.code) && s.handler != Null)
  }

  /** Every slot of the table is well formed. */
  predicate WellFormed(t: Table) {
    forall i :: 0 <= i < |t| ==> WellFormedSlot(t[i])
  }

  /** A table of `capacity` slots: the compile-time entries, then free slots. */
  function InitialTable(defaults: seq<Slot>, capacity: nat): (t: Table)
    requires |defaults| <= capacity
    ensures |t| == capacity
    ensures t[..|defaults|] == defaults
    ensures forall i :: |defaults| <= i < capacity ==> t[i] == FreeSlot
  {
    defaults + seq(capacity - |defaults|, _ => FreeSlot)
  }

  // ---------------------------------------------------------------------
  // Searching

  /** The lowest index at or after `from` whose slot satisfies `p`. */
  function FirstWhere(t: Table, p: Slot -> bool, from: nat): (r: Option<nat>)
    requires from <= |t|
    ensures r.Some? ==> from <= r.value < |t| && p(t[r.value])
    ensures r.Some? ==> forall j :: from <= j < r.value ==> !p(t[j])
    ensures r.None? ==> forall j :: from <= j < |t| ==> !p(t[j])
    decreases |t| - from
  {
    if from == |t| then None
    else if p(t[from]) then Some(from)
    else FirstWhere(t, p, from + 1)
  }

  /** A slot registration may take for handler `h`: its handler is null or `h`. */
  predicate Reusable(s: Slot, h: HandlerRef) {
    s.handler == Null || s.handler == h
  }

  /** Slot `i` is the first one registration may take for handler `h`. */
  predicate FirstReusable(t: Table, h: HandlerRef, i: int) {
    0 <= i < |t| && Reusable(t[i], h) && forall j :: 0 <= j < i ==> !Reusable(t[j], h)
  }

  /** Slot `i` is the first one whose code is `code`. */
  predicate FirstWithCode(t: Table, code: byte, i: int) {
    0 <= i < |t| && t[i].code == code && forall j :: 0 <= j < i ==> t[j].code != code
  }

  // ---------------------------------------------------------------------
  // Registration

  datatype Update = Update(table: Table, status: ErrorCode)

  /**
    Registration of `h` for `code`. A code outside 1..127 is refused.
    A non-null handler takes the first slot that is free or already bound
    to the same handler, or fails with ENoRes when there is none. A null
    handler clears the first slot holding `code`; that never fails.
   */
  function Register(t: Table, code: byte, h: HandlerRef): (r: Update)
    ensures |r.table| == |t|
    ensures !ValidCode(code) ==> r.status == EInval && r.table == t
    ensures ValidCode(code) && h != Null ==>
      (r.status == ENoErr <==> exists i :: 0 <= i < |t| && Reusable(t[i], h))
    ensures ValidCode(code) && h != Null && r.status == ENoErr ==>
      exists i :: FirstReusable(t, h, i) && r.table == t[i := Slot(code, h)]
    ensures ValidCode(code) && h != Null && r.status != ENoErr ==>
      r.status == ENoRes && r.table == t
    ensures ValidCode(code) && h == Null ==> r.status == ENoErr
    ensures ValidCode(code) && h == Null && (forall i :: 0 <= i < |t| ==> t[i].code != code) ==>
      r.table == t
    ensures ValidCode(code) && h == Null ==>
      forall i :: FirstWithCode(t, code, i) ==> r.table == t[i := FreeSlot]
  {
    if !ValidCode(code) then
      Update(t, EInval)
    else if h != Null then
      match FirstWhere(t, (s: Slot) => Reusable(s, h), 0)
      case Some(i) =>
        assert FirstReusable(t, h, i);
        Update(t[i := Slot(code, h)], ENoErr)
      case None => Update(t, ENoRes)
    else
      match FirstWhere(t, (s: Slot) => s.code == code, 0)
      case Some(i) =>
        assert FirstWithCode(t, code, i);
        Update(t[i := FreeSlot], ENoErr)
      case None => Update(t, ENoErr)
  }

  // ---------------------------------------------------------------------
  // Dispatch scan

  /**
    Outcome of the scan: the handler slot that matched, the free slot that
    stopped the scan, or the end of the table with neither.
   */
  datatype ScanResult = Match(index: nat) | Stopped(index: nat) | Exhausted

  /** The scan moves past a slot that is neither free nor a match for `fc`. */
  predicate Passes(s: Slot, fc: byte) {
    s.code != 0 && s.code != fc
  }

  /** The scan for `fc` gets as far as slot `i`. */
  predicate Reaches(t: Table, fc: byte, i: int) {
    0 <= i < |t| && forall j :: 0 <= j < i ==> Passes(t[j], fc)
  }

  /**
    The scan from slot `from`: a code-0 slot ends it before any comparison
    with `fc`, so a zero function code can never match.
   */
  function ScanFrom(t: Table, fc: byte, from: nat): (r: ScanResult)
    requires from <= |t|
    ensures r.Match? ==> from <= r.index < |t| && t[r.index].code == fc && fc != 0
    ensures r.Stopped? ==> from <= r.index < |t| && t[r.index].code == 0
    ensures r.Match? || r.Stopped? ==> forall j :: from <= j < r.index ==> Passes(t[j], fc)
    ensures r.Exhausted? <==> forall j :: from <= j < |t| ==> Passes(t[j], fc)
    ensures forall i :: from <= i < |t| && (forall j :: from <= j < i ==> Passes(t[j], fc)) && !Passes(t[i], fc) ==>
      r == if t[i].code == 0 then Stopped(i) else Match(i)
    decreases |t| - from
  {
    if from == |t| then Exhausted
    else if t[from].code == 0 then Stopped(from)
    else if t[from].code == fc then Match(from)
    else ScanFrom(t, fc, from + 1)
  }

  /** The scan of the whole table for function code `fc`. */
  function Scan(t: Table, fc: byte): (r: ScanResult)
    ensures r.Match? ==> Reaches(t, fc, r.index) && t[r.index].code == fc && fc != 0
    ensures r.Stopped? ==> Reaches(t, fc, r.index) && t[r.index].code == 0
    ensures r.Exhausted? <==> forall j :: 0 <= j < |t| ==> Passes(t[j], fc)
    ensures forall i :: Reaches(t, fc, i) && !Passes(t[i], fc) ==>
      r == if t[i].code == 0 then Stopped(i) else Match(i)
  {
    ScanFrom(t, fc, 0)
  }
}

=== FILE: func_table_properties.dfy ===
/**
  Properties of the dispatch table that relate several registrations and
  scans: well-formedness is kept, unregistering undoes a registration,
  a fresh registration is dispatched, a freed slot hides the slots after
  it, and re-registering a code under a new handler is shadowed.
 */
module FuncTableProperties {
  import opened ModbusTypes
  import opened FuncTable

  /** Registration keeps every slot free or validly bound. */
  lemma RegisterPreservesWellFormed(t: Table, code: byte, h: HandlerRef)
    requires WellFormed(t)
    ensures WellFormed(Register(t, code, h).table)
  {
  }

  /**
    In a well-formed table the slots the scan passes hold non-null
    handlers, so a slot registration may take for `h` and that the scan
    passes must already be bound to `h`.
   */
  lemma PassedSlotsAreBound(t: Table, fc: byte, i: int)
    requires WellFormed(t)
    requires 0 <= i < |t| && Passes(t[i], fc)
    ensures t[i].handler != Null
  {
    assert WellFormedSlot(t[i]);
  }

  /**
    Unregistering a code just registered for a fresh handler gives back
    the original table: the registration took a free slot, and that slot
    is the first one holding the code.
   */
  lemma {:induction false} UnregisterUndoesRegister(t: Table, code: byte, h: HandlerRef)
    requires WellFormed(t)
    requires ValidCode(code) && h != Null
    requires forall i :: 0 <= i < |t| ==> t[i].code != code && t[i].handler != h
    requires Register(t, code, h).status == ENoErr
    ensures Register(Register(t, code, h).table, code, Null) == Update(t, ENoErr)
  {
    var t' := Register(t, code, h).table;
    var i :| FirstReusable(t, h, i) && t' == t[i := Slot(code, h)];
    assert WellFormedSlot(t[i]);
    assert FirstWithCode(t', code, i);
    assert t'[i := FreeSlot] == t;
  }

  /**
    A code registered for the first time, in a well-formed table, is
    dispatched to the new handler: every slot before the one it took is
    bound to another handler and so holds another, non-zero code.
   */
  lemma {:induction false} RegisteredCodeIsDispatched(t: Table, code: byte, h: HandlerRef)
    requires WellFormed(t)
    requires ValidCode(code) && h != Null
    requires forall i :: 0 <= i < |t| ==> t[i].code != code
    requires Register(t, code, h).status == ENoErr
    ensures Scan(Register(t, code, h).table, code).Match?
    ensures Register(t, code, h).table[Scan(Register(t, code, h).table, code).index].handler == h
  {
    var t' := Register(t, code, h).table;
    var i :| FirstReusable(t, h, i) && t' == t[i := Slot(code, h)];
    forall j | 0 <= j < i
      ensures Passes(t'[j], code)
    {
      assert !Reusable(t[j], h);
      assert WellFormedSlot(t[j]);
    }
    assert Reaches(t', code, i);
  }

  /** No scan reaches a slot that comes after a free slot. */
  lemma FreeSlotHidesLaterSlots(t: Table, k: int, j: int, fc: byte)
    requires 0 <= k < j < |t| && t[k].code == 0
    ensures !Reaches(t, fc, j)
    ensures Scan(t, fc) != Match(j)
  {
    assert !Passes(t[k], fc);
  }

  /**
    Unregistering a code that sits before the slot a dispatch used to
    reach leaves a hole: the scan now stops at the freed slot, and the
    later handler is unreachable until the hole is filled again.
   */
  lemma {:induction false} UnregisterHidesLaterHandler(t: Table, code: byte, fc: byte, k: int)
    requires ValidCode(code)
    requires FirstWithCode(t, code, k)
    requires Scan(t, fc).Match? && k < Scan(t, fc).index
    ensures Scan(Register(t, code, Null).table, fc) == Stopped(k)
  {
    var j := Scan(t, fc).index;
    var t' := Register(t, code, Null).table;
    assert t' == t[k := FreeSlot];
    assert Reaches(t, fc, j);
    assert forall m :: 0 <= m < k ==> Passes(t'[m], fc);
    assert Reaches(t', fc, k);
  }

  /**
    Registering an already dispatched code under a handler bound nowhere
    before it adds a second slot for that code after the first one; the
    scan keeps dispatching the code to the old handler.
   */
  lemma {:induction false} ReRegisteredCodeIsShadowed(t: Table, code: byte, h: HandlerRef)
    requires WellFormed(t)
    requires ValidCode(code) && h != Null
    requires Scan(t, code).Match?
    requires forall m :: 0 <= m <= Scan(t, code).index ==> t[m].handler != h
    requires Register(t, code, h).status == ENoErr
    ensures Scan(Register(t, code, h).table, code) == Scan(t, code)
    ensures exists i :: Scan(t, code).index < i < |t| && Register(t, code, h).table[i] == Slot(code, h)
  {
    var j := Scan(t, code).index;
    var t' := Register(t, code, h).table;
    var i :| FirstReusable(t, h, i) && t' == t[i := Slot(code, h)];
    forall m | 0 <= m <= j
      ensures !Reusable(t[m], h)
    {
      if m < j {
        assert Passes(t[m], code);
        PassedSlotsAreBound(t, code, m);
      } else {
        assert WellFormedSlot(t[m]);
      }
    }
    assert i > j;
    assert Reaches(t', code, j);
    assert t'[i] == Slot(code, h);
  }
}

=== FILE: master_engine.dfy ===
/**
  The master-mode protocol engine: lifecycle state, the transport bound at
  initialisation, the dispatch table, the event queue, the master response
  timer and the last received frame, with every API call as a pure
  transition. Transport, queue and handler results are parameters; the
  calls the engine makes on its collaborators are listed, in order, as
  effects.
 */
module MasterEngine {
  import opened ModbusTypes
  import opened FuncTable

  /** Lifecycle state of the engine. */
  datatype State = Enabled | Disabled | NotInitialized

  /** The master response timer: off, or armed with a timeout in milliseconds. */
  datatype MasterTimer = Idle | Armed(timeoutMs: nat)

  /** Timeout armed after a request frame has left (milliseconds). */
  const ResponseTimeoutMs: nat := 5000

  /**
    Compile-time configuration: which serial transports are built in, and
    whether the port layer provides a close operation.
   */
  datatype Config = Config(rtuEnabled: bool, asciiEnabled: bool, portHasClose: bool)

  /** The transport operations bound by initialisation. */
  datatype Binding = Binding(mode: Mode, hasClose: bool)

  datatype Engine = Engine(
    state: State,
    mode: Option<Mode>,         // mode recorded by the last successful init
    binding: Option<Binding>,   // transport operations currently bound
    table: Table,
    illegal: HandlerRef,        // fallback for function codes with no handler
    queue: seq<Event>,
    timer: MasterTimer,
    frame: Option<Frame>,       // frame left by the last successful receive
    exception: Exception)       // result of the last dispatch

  /** Calls the engine makes on its collaborators. */
  datatype Effect =
    | TransportInit(mode: Mode, address: byte, port: byte, baud: uint32, parity: Parity)
    | EventQueueInit
    | TransportStart
    | TransportStop
    | TransportClose
    | TimerDisable
    | TimerEnable(timeoutMs: nat)
    | Receive
    | Post(event: Event)
    | Invoke(handler: HandlerRef)

  /** The engine after a call, the status the call returns, and its effects. */
  datatype Step = Step(engine: Engine, status: ErrorCode, effects: seq<Effect>)

  /** What the transport's receive operation reports. */
  datatype RxResult = RxResult(status: ErrorCode, frame: Frame)

  /**
    The engine before any call: not initialised, nothing bound, no frame,
    an idle timer, and the handler table as configured at compile time,
    with the slots after the configured entries free.
   */
  function Initial(defaults: seq<Slot>, capacity: nat): (e: Engine)
    requires |defaults| <= capacity
    ensures e.state == NotInitialized && e.illegal == Null && e.queue == []
    ensures e.mode == None && e.binding == None && e.frame == None
    ensures e.timer == Idle && e.exception == ExNone
    ensures e.table == InitialTable(defaults, capacity)
    ensures |e.table| == capacity && e.table[..|defaults|] == defaults
    ensures forall i :: |defaults| <= i < capacity ==> e.table[i] == FreeSlot
  {
    Engine(NotInitialized, None, None, InitialTable(defaults, capacity),
           Null, [], Idle, None, ExNone)
  }

  // ---------------------------------------------------------------------
  // Lifecycle

  /** The modes `eMBInit` has a case for under configuration `cfg`. */
  predicate Supported(cfg: Config, mode: Mode) {
    (mode == RTU && cfg.rtuEnabled) || (mode == ASCII && cfg.asciiEnabled)
  }

  /**
    Initialisation for `mode`. The transport operations are bound before
    the transport's own initialisation runs, so a failed initialisation of
    a supported mode still replaces the binding. Only when both the
    transport and the event queue come up is the mode recorded and the
    engine disabled; the lifecycle state is not checked first.
   */
  function Init(e: Engine, cfg: Config, mode: Mode, address: byte, port: byte,
                baud: uint32, parity: Parity, transportStatus: ErrorCode,
                queueOk: bool): (r: Step)
    ensures !Supported(cfg, mode) ==> r == Step(e, EInval, [])
    ensures r.status == ENoErr <==> Supported(cfg, mode) && transportStatus == ENoErr && queueOk
    ensures Supported(cfg, mode) ==> r.engine.binding == Some(Binding(mode, cfg.portHasClose))
    ensures Supported(cfg, mode) && transportStatus != ENoErr ==> r.status == transportStatus
    ensures Supported(cfg, mode) && transportStatus == ENoErr && !queueOk ==> r.status == EPortErr
    ensures r.status == ENoErr ==>
      r.engine.state == Disabled && r.engine.mode == Some(mode) && r.engine.queue == []
    ensures r.status != ENoErr ==>
      r.engine.state == e.state && r.engine.mode == e.mode && r.engine.queue == e.queue
    ensures r.engine.table == e.table && r.engine.illegal == e.illegal
    ensures r.engine.timer == e.timer && r.engine.frame == e.frame && r.engine.exception == e.exception
    ensures Supported(cfg, mode) ==>
      |r.effects| > 0 && r.effects[0] == TransportInit(mode, address, port, baud, parity)
    ensures EventQueueInit in r.effects <==> Supported(cfg, mode) && transportStatus == ENoErr
    ensures Supported(cfg, mode) ==>
      r.effects == [TransportInit(mode, address, port, baud, parity)]
                   + (if transportStatus == ENoErr then [EventQueueInit] else [])
  {
    if !Supported(cfg, mode) then
      Step(e, EInval, [])
    else
      var bound := e.(binding := Some(Binding(mode, cfg.portHasClose)));
      var init := TransportInit(mode, address, port, baud, parity);
      if transportStatus != ENoErr then
        Step(bound, transportStatus, [init])
      else if !queueOk then
        Step(bound, EPortErr, [init, EventQueueInit])
      else
        Step(bound.(mode := Some(mode), state := Disabled, queue := []), ENoErr,
             [init, EventQueueInit])
  }

  /** Enabling starts the transport; it is legal only from Disabled. */
  function Enable(e: Engine): (r: Step)
    ensures r.status == ENoErr <==> e.state == Disabled
    ensures r.status == ENoErr ==>
      r.engine == e.(state := Enabled) && r.effects == [TransportStart]
    ensures r.status != ENoErr ==> r == Step(e, EIllState, [])
  {
    if e.state == Disabled then Step(e.(state := Enabled), ENoErr, [TransportStart])
    else Step(e, EIllState, [])
  }

  /**
    Disabling stops the transport of an enabled engine, succeeds without
    effect on a disabled one, and is illegal before initialisation.
   */
  function Disable(e: Engine): (r: Step)
    ensures r.status == ENoErr <==> e.state != NotInitialized
    ensures r.status != ENoErr ==> r == Step(e, EIllState, [])
    ensures e.state == Enabled ==>
      r.engine == e.(state := Disabled) && r.effects == [TransportStop]
    ensures e.state != Enabled ==> r.engine == e && r.effects == []
  {
    match e.state
    case Enabled => Step(e.(state := Disabled), ENoErr, [TransportStop])
    case Disabled => Step(e, ENoErr, [])
    case NotInitialized => Step(e, EIllState, [])
  }

  /**
    Closing is legal only from Disabled; it calls the transport's close
    operation when one is bound and never changes the engine.
   */
  function Close(e: Engine): (r: Step)
    ensures r.engine == e
    ensures r.status == ENoErr <==> e.state == Disabled
    ensures r.status != ENoErr ==> r.status == EIllState && r.effects == []
    ensures r.effects == [TransportClose] <==>
      e.state == Disabled && e.binding.Some? && e.binding.value.hasClose
    ensures r.effects == [] || r.effects == [TransportClose]
  {
    if e.state == Disabled then
      if e.binding.Some? && e.binding.value.hasClose then Step(e, ENoErr, [TransportClose])
      else Step(e, ENoErr, [])
    else Step(e, EIllState, [])
  }

  // ---------------------------------------------------------------------
  // Handler registration

  /** Registration changes only the table, in any lifecycle state. */
  function RegisterCB(e: Engine, code: byte, h: HandlerRef): (r: Step)
    ensures r.engine == e.(table := r.engine.table) && r.effects == []
    ensures |r.engine.table| == |e.table|
    ensures r.status == ENoErr || r.status == EInval || r.status == ENoRes
    ensures r.status == EInval <==> !ValidCode(code)
    ensures r.status != ENoErr ==> r.engine == e
    ensures Update(r.engine.table, r.status) == Register(e.table, code, h)
  {
    var u := Register(e.table, code, h);
    Step(e.(table := u.table), u.status, [])
  }

  /** The fallback handler is replaced unconditionally. */
  function RegisterIllegalFuncCB(e: Engine, h: HandlerRef): (r: Step)
    ensures r.status == ENoErr && r.effects == []
    ensures r.engine == e.(illegal := h)
  {
    Step(e.(illegal := h), ENoErr, [])
  }

  // ---------------------------------------------------------------------
  // Dispatch of a received frame

  /** The exception a dispatch produced and the handler call it made. */
  datatype Dispatched = Dispatched(exception: Exception, effects: seq<Effect>)

  /**
    Dispatch of frame `f` as the poll loop performs it, with the fallback
    call guarded: the handler of the lowest slot holding the function code
    runs, unless a free slot comes first, in which case the fallback runs
    if one is registered. In every other case the exception stays
    ILLEGAL FUNCTION.
   */
  function Dispatch(t: Table, illegal: HandlerRef, f: Frame,
                   run: (HandlerRef, Frame) -> Exception): (r: Dispatched)
    ensures forall i :: Reaches(t, f.functionCode, i) && !Passes(t[i], f.functionCode) && t[i].code != 0 ==>
      r == Dispatched(run(t[i].handler, f), [Invoke(t[i].handler)])
    ensures forall i :: Reaches(t, f.functionCode, i) && t[i].code == 0 && illegal != Null ==>
      r == Dispatched(run(illegal, f), [Invoke(illegal)])
    ensures forall i :: Reaches(t, f.functionCode, i) && t[i].code == 0 && illegal == Null ==>
      r == Dispatched(ExIllegalFunction, [])
    ensures (forall j :: 0 <= j < |t| ==> Passes(t[j], f.functionCode)) ==>
      r == Dispatched(ExIllegalFunction, [])
  {
    match Scan(t, f.functionCode)
    case Match(i) => Dispatched(run(t[i].handler, f), [Invoke(t[i].handler)])
    case Stopped(_) =>
      if illegal != Null then Dispatched(run(illegal, f), [Invoke(illegal)])
      else Dispatched(ExIllegalFunction, [])
    case Exhausted => Dispatched(ExIllegalFunction, [])
  }

  /**
    Dispatch exactly as the source writes it: a scan that stops at a free
    slot calls the fallback pointer whether or not one was registered.
   */
  function ExecuteAsWritten(t: Table, illegal: HandlerRef, f: Frame,
                            run: (HandlerRef, Frame) -> Exception): (r: Dispatched)
    ensures forall i :: Reaches(t, f.functionCode, i) && t[i].code == 0 ==>
      r == Dispatched(run(illegal, f), [Invoke(illegal)])
    ensures forall i :: Reaches(t, f.functionCode, i) && t[i].code != 0 && !Passes(t[i], f.functionCode) ==>
      r == Dispatch(t, illegal, f, run)
    ensures (forall j :: 0 <= j < |t| ==> Passes(t[j], f.functionCode)) ==>
      r == Dispatch(t, illegal, f, run)
  {
    match Scan(t, f.functionCode)
    case Stopped(_) => Dispatched(run(illegal, f), [Invoke(illegal)])
    case _ => Dispatch(t, illegal, f, run)
  }

  // ---------------------------------------------------------------------
  // Poll

  /**
    What the source needs to poll safely: an Execute event only ever
    follows a successful receive, so a frame is there to read.
   */
  predicate PollDefined(e: Engine) {
    e.state == Enabled && |e.queue| > 0 && e.queue[0] == Execute ==> e.frame.Some?
  }

  /** The lifecycle part of the engine: everything a poll leaves alone. */
  predicate SameLifecycle(a: Engine, b: Engine) {
    a.state == b.state && a.mode == b.mode && a.binding == b.binding
    && a.table == b.table && a.illegal == b.illegal
  }

  /**
    One poll: refused unless enabled; otherwise takes at most one event
    off the queue and handles it. A received frame first stops the
    response timer, then is read, and Execute is queued only when the read
    succeeded. Execute dispatches the last frame; FrameSent arms the
    response timer. An enabled poll reports success whatever happened.
   */
  function Poll(e: Engine, rx: RxResult, run: (HandlerRef, Frame) -> Exception): (r: Step)
    requires PollDefined(e)
    ensures e.state != Enabled ==> r == Step(e, EIllState, [])
    ensures e.state == Enabled ==> r.status == ENoErr
    ensures SameLifecycle(r.engine, e)
    ensures e.state == Enabled && e.queue == [] ==> r.engine == e && r.effects == []
    ensures e.state == Enabled && e.queue != [] ==>
      r.engine.queue == e.queue[1..] + (if e.queue[0] == FrameReceived && rx.status == ENoErr then [Execute] else [])
    ensures e.state == Enabled && e.queue != [] && e.queue[0] == Ready ==>
      r.engine == e.(queue := e.queue[1..]) && r.effects == []
    ensures e.state == Enabled && e.queue != [] && e.queue[0] == FrameReceived ==>
      && |r.effects| >= 2 && r.effects[..2] == [TimerDisable, Receive]
      && r.engine.timer == Idle
      && (Post(Execute) in r.effects <==> rx.status == ENoErr)
      && r.effects == [TimerDisable, Receive] + (if rx.status == ENoErr then [Post(Execute)] else [])
      && r.engine.frame == (if rx.status == ENoErr then Some(rx.frame) else e.frame)
      && r.engine.exception == e.exception
    ensures e.state == Enabled && e.queue != [] && e.queue[0] == Execute ==>
      var d := Dispatch(e.table, e.illegal, e.frame.value, run);
      r.engine == e.(queue := e.queue[1..], exception := d.exception) && r.effects == d.effects
    ensures e.state == Enabled && e.queue != [] && e.queue[0] == FrameSent ==>
      r.engine == e.(queue := e.queue[1..], timer := Armed(ResponseTimeoutMs))
      && r.effects == [TimerEnable(ResponseTimeoutMs)]
  {
    if e.state != Enabled then
      Step(e, EIllState, [])
    else if e.queue == [] then
      Step(e, ENoErr, [])
    else
      var rest := e.(queue := e.queue[1..]);
      match e.queue[0]
      case Ready =>
        Step(rest, ENoErr, [])
      case FrameReceived =>
        if rx.status == ENoErr then
          Step(rest.(timer := Idle, frame := Some(rx.frame), queue := rest.queue + [Execute]),
               ENoErr, [TimerDisable, Receive, Post(Execute)])
        else
          Step(rest.(timer := Idle), ENoErr, [TimerDisable, Receive])
      case Execute =>
        var d := Dispatch(e.table, e.illegal, e.frame.value, run);
        Step(rest.(exception := d.exception), ENoErr, d.effects)
      case FrameSent =>
        Step(rest.(timer := Armed(ResponseTimeoutMs)), ENoErr, [TimerEnable(ResponseTimeoutMs)])
  }

  /**
    An event posted by the transport or port layer joins the queue's tail;
    the events already queued keep their order ahead of it, and nothing
    else changes.
   */
  function Arrive(e: Engine, ev: Event): (r: Engine)
    ensures |r.queue| == |e.queue| + 1
    ensures r.queue[..|e.queue|] == e.queue && r.queue[|e.queue|] == ev
    ensures r == e.(queue := r.queue)
  {
    e.(queue := e.queue + [ev])
  }

  // ---------------------------------------------------------------------
  // Invariant

  /**
    What every reachable engine satisfies: an initialised engine has a
    mode and a bound transport, the table is well formed, and a queued
    Execute always has a frame to dispatch.
   */
  predicate Inv(e: Engine) {
    && (e.state != NotInitialized ==> e.mode.Some? && e.binding.Some?)
    && WellFormed(e.table)
    && (Execute in e.queue ==> e.frame.Some?)
  }
}

=== FILE: modbus_types.dfy ===
/**
  Shared vocabulary of the Modbus master engine: byte-sized integers, the
  closed set of error codes every API call returns, the transport modes,
  the protocol events, handler references and received frames.
 */
module ModbusTypes {

  /** An unsigned 8-bit value (the source's UCHAR). */
  newtype byte = x: int | 0 <= x < 0x100

  /** An unsigned 16-bit value (the source's USHORT). */
  newtype uint16 = x: int | 0 <= x < 0x1_0000

  /** An unsigned 32-bit value (the source's ULONG). */
  newtype uint32 = x: int | 0 <= x < 0x1_0000_0000

  /** Error codes returned by every engine operation (eMBErrorCode). */
  datatype ErrorCode =
    | ENoErr       // no error
    | ENoReg       // illegal register address
    | EInval       // illegal argument
    | EPortErr     // porting layer error
    | ENoRes       // insufficient resources
    | EIo          // I/O error
    | EIllState    // protocol stack in illegal state
    | ETimedOut    // timeout error

  /** Transport variants an application may ask for (eMBMode). */
  datatype Mode = RTU | ASCII | TCP

  /** Serial parity settings handed to the transport (eMBParity). */
  datatype Parity = ParityNone | ParityOdd | ParityEven

  /** Events held by the event queue and consumed by the poll loop. */
  datatype Event = Ready | FrameReceived | Execute | FrameSent

  /** An optional value. */
  datatype Option<T> = None | Some(value: T)

  /** A function-pointer value: the null pointer or some handler. */
  datatype HandlerRef = Null | Fn(id: nat)

  /**
    A frame as the transport's receive operation hands it over: the
    sender's address and the protocol data unit, whose first byte is the
    function code.
   */
  datatype Frame = Frame(address: byte, functionCode: byte, data: seq<byte>)

  /** Modbus exception codes returned by function handlers (eMBException). */
  type Exception = byte

  /** No exception (MB_EX_NONE). */
  const ExNone: Exception := 0

  /** Exception 01, ILLEGAL FUNCTION, of the Modbus application protocol. */
  const ExIllegalFunction: Exception := 1
}
